=== FILE: README.md ===
# Casting agency service — a Dafny model

The agency service is a small Flask backend that keeps two tables, actors
and movies, and exposes them over HTTP. Anyone can list the tables. Adding,
patching and deleting rows needs a bearer token from an external identity
provider whose payload grants the route's permission (`post:actors`,
`patch:movie`, `delete:actor`, ...).

This project models that logic as pure functions:

- `Models` (`models.dfy`): each table is a map from primary key to an
  immutable row, plus the next value of the id sequence. The module gives
  `insert`, `update`, `delete`, `query.get` and `query.all` as
  transitions, and the `format()` serialisers with their inverse parsers.
- `App` (`app.dfy`): each route handler is a transition that returns the
  new table and an outcome. The outcome is a value, an `abort(status)`,
  a raised `AuthError`, or an unhandled exception. `Respond` plays the
  registered error handlers, and the requires_auth wrapper is modelled too.
  `Serve` handles one request against both tables.
- `Auth` (`auth.dfy`): bearer-header parsing, `check_permissions`, the
  key-selection loop of `get_rsa_key`, the exception mapping of
  `verify_decode_jwt`, and the chain that `requires_auth` runs. The
  identity provider is an input value. It holds the downloaded key-set
  document, the JWT library's unverified-header reader, and its decode.
- `Text` (`text.dfy`): Python's `str.split(' ')` (every space splits, empty
  pieces kept) with its inverse `Join`, and `str.lower()`.
- `JsonValue` (`json_value.dfy`): JSON values, Python truthiness, and
  Python's `in` on a value of unknown shape.
- `Outcomes` (`outcomes.dfy`): `Option`, `AuthError` and `Outcome`.

The headline results:
- The store changes only for a request whose token decodes to a payload
  granting the route's permission (`App.StoreChangesOnlyWithPermission`).
- Every answer is a 200 with `success: true`, a JSON error that repeats
  its status, or the 500 page (`App.ResponsesAreWellFormed`).
- Each handler pins down exactly when the table changes and which status
  is returned.

`agency/tests.py` calls the protected routes without an `Authorization`
header and expects 200, 404 or 422. Under the code's `requires_auth` every
one of those requests gets 401 and changes nothing (`App.MissingHeaderIsRejected`). The model follows
the code.

The module `.auth.auth` that `agency/app.py` imports is not part of this
model. It is taken to be `starter/auth/auth.py`.

## Model

| member | source | states |
|---|---|---|
| Text.Split | starter/auth/auth.py:49 | `split(' ')` always yields at least one piece, and no piece contains a space. Joining the pieces with spaces gives back the header, so `len(split_auth_header) == 0` can never hold |
| Text.SplitJoin | starter/auth/auth.py:49 | Splitting undoes joining when no piece contains the separator |
| Text.SplitAtSeparator | starter/auth/auth.py:49 | Splitting at one space splits the two sides independently, so words after the token never change the token |
| Text.BearerInAnyCase | starter/auth/auth.py:57 | `s.lower() == 'bearer'` holds exactly for the six-letter spellings of "bearer" in any mix of cases |
| Text.BearerHasNoSpace | starter/auth/auth.py:57 | A scheme that passes the lower-case test holds no space, so it is always a whole piece of the split |
| JsonValue.StrIn | starter/auth/auth.py:81 | Python `in` on the permissions claim never aborts or raises an AuthError. It raises a TypeError exactly when the claim is None, a boolean or a number |
| Models.Insert | agency/models.py:61-76 | `insert()` stores the row under the serial sequence's next value, which no stored row uses and which is at least 1, and the sequence advances past it. The row can then be fetched by that id, and every other id reads as before |
| Models.DeletedIdNotReused | agency/models.py:61-83 | After a row is deleted, the next insert gets an id above the deleted one and the sequence stays above it, so a deleted id is never handed out again |
| Models.Update | agency/models.py:78-79 | `update()` keeps the set of ids and the id sequence. The row under the id becomes the changed row, and all other rows stay |
| Models.Delete | agency/models.py:81-83 | `delete()` removes exactly the given id. All other rows stay and the id sequence is unchanged |
| Models.DeleteUndoesInsert | agency/models.py:74-83 | Deleting the row an insert just created restores the original rows. The sequence has still advanced |
| Models.NoRowHasIdZero | agency/models.py:61 | The serial primary key never hands out 0, so `query.get(0)` finds nothing |
| Models.Get | agency/app.py:114 | `query.get(id)` finds a row exactly when the id is stored, and then it is the stored row |
| Models.FormatActor | agency/models.py:85-91 | `Actor.format()` has exactly the keys id, name, age and gender, each holding the row's value |
| Models.FormatMovie | agency/models.py:116-121 | `Movie.format()` has exactly the keys id, title and release, each holding the row's value |
| Models.ActorFormatRoundTrip | agency/models.py:85-91 | The actor serialisation loses nothing: parsing it gives back the id and fields. Only a serialised actor parses |
| Models.MovieFormatRoundTrip | agency/models.py:116-121 | The movie serialisation loses nothing, and only a serialised movie parses |
| Models.RowsFrom | agency/app.py:44 | The listed rows are stored rows within the id range, with strictly ascending ids |
| Models.RowsFromComplete | agency/app.py:44 | Every stored row in the id range is listed |
| Models.RowsFromCount | agency/app.py:44 | The listing is exactly as long as the number of stored ids in the range |
| Models.AllRowsListsEveryRow | agency/app.py:44 | `query.all()` returns every stored row exactly once and nothing else |
| Models.AllRows | agency/app.py:44 | `query.all()` lists only stored rows with their stored values, in strictly ascending id order |
| Auth.GetTokenAuthHeaderAsWritten | starter/auth/auth.py:40-69 | A missing or empty header gives 401 `invalid_header` "Authorization header not found.". Every raised error is a 401 `invalid_header`, and the "Invalid token header." branch is never taken. A crash is possible |
| Auth.GetTokenAuthHeader | starter/auth/auth.py:40-69 | The parser with a length guard after the scheme test never crashes. Every failure is a 401 `invalid_header`, and a missing or empty header is "Authorization header not found." |
| Auth.SingleWordHeaderCrashes | starter/auth/auth.py:49-63 | A header that is the single word "bearer" in any case hits an IndexError as written. With the guard it is a 401 "Invalid token header." |
| Auth.HeaderFixChangesOnlyTheCrash | starter/auth/auth.py:49-69 | The code as written crashes exactly on a one-word bearer header. The guarded parser answers differently from the code for exactly those headers and agrees with it on every other header, missing ones included |
| Auth.BearerTokenAccepted | starter/auth/auth.py:49-69 | `<bearer in any case> <word>` yields the word, and so does the same header followed by a space and anything else. This holds for the code as written and for the guarded parser |
| Auth.AcceptedHeaderShape | starter/auth/auth.py:49-69 | Conversely, a token the code accepts is non-empty and space-free. It is exactly the text after "bearer " (any case) up to the next space or the end, and the guarded parser accepts the same token |
| Auth.EmptyTokenRejected | starter/auth/auth.py:63-67 | Any bearer scheme followed by one space and nothing else, or by two spaces and anything, gives 401 "Empty Bearer token value.". This holds as written and guarded |
| Auth.NonBearerSchemeRejected | starter/auth/auth.py:57-61 | Any first word other than "bearer" in some case gives 401 "Invalid token type.". The word may stand alone (non-empty) or be followed by a space and anything. This holds as written and guarded |
| Auth.CheckPermissions | starter/auth/auth.py:74-87 | No `permissions` claim gives 422 `invalid_payload`. A claim that does not contain the permission gives 403 `forbidden`. Success, always with `True`, comes exactly when the permission is in the claim. Otherwise it is a TypeError |
| Auth.PermissionListMembership | starter/auth/auth.py:81-85 | For a list of permission strings, success happens exactly when the permission is in the list, and 403 exactly when it is not |
| Auth.ScanKeys | starter/auth/auth.py:109-119 | The loop either finishes or raises. It never aborts or raises an AuthError, and once a key has been chosen the result holds a key |
| Auth.ScanKeysPicksLastMatch | starter/auth/auth.py:109-119 | The key loop fails exactly when an entry has no `kid`, or matches but lacks one of the copied members. If no entry matches, the previous `rsa_key` is kept. Otherwise the key comes from the LAST matching entry, since the loop does not break |
| Auth.GetRsaKey | starter/auth/auth.py:93-127 | A falsy key-set document gives 422 `invalid_auth_api`. An unreadable token header is an unhandled error, and a header without `kid` gives 422. The only errors raised are these two and 401 `invalid_key` |
| Auth.KeyList | starter/auth/auth.py:110 | `jwks_data['keys']` iterates a list as its entries, and an empty dict or string as no entries. A document without `keys`, or a `keys` that is None, a boolean or a number, raises. Any other non-list `keys` that does not raise yields no entries |
| Auth.GetRsaKeyUsesLastMatch | starter/auth/auth.py:109-127 | With a readable key set and a token naming a `kid`, three things hold. The lookup fails with an unhandled error exactly when some entry breaks the loop. It gives 401 "Unable to find the appropriate key." exactly when no entry matches and none breaks. When no entry breaks and some entry matches, the key is built from the last matching entry |
| Auth.DecodeFailureAsWritten | starter/auth/auth.py:145-161 | As written, an expired token gives 401 and every other decode failure gives 422. The `invalid_decode` error is never produced |
| Auth.DecodeFailure | starter/auth/auth.py:145-161 | With the claims handler reachable, an expired token gives 401 and claims or other failures give 422 |
| Auth.ClaimsHandlerUnreachable | starter/auth/auth.py:145-161 | As written, a rejected audience or issuer gets the same `invalid_token` error as a bad signature. With the handler reachable, each failure kind gets a different error |
| Auth.VerifyDecodeJwt | starter/auth/auth.py:132-161 | A payload comes back exactly when key selection succeeds and the library returns claims for that key. A key-selection failure passes through unchanged. A decode failure raises the error of the first handler that catches it in the code's order. So an expired token is 401 "Token has expired.", any other failure is 422 "Token is invalid.", and `invalid_decode` never appears |
| Auth.Authorize | starter/auth/auth.py:164-171 | Uses the header parser as written. The checks succeed exactly when the header yields a token, the token decodes, and the payload grants the permission. Otherwise the outcome is the failure of the first check that fails: header parsing, then decoding, then the permission check. Every raised error is 401, 403 or 422, and a request without a header gets 401 |
| App.Listing | agency/app.py:51 | The list holds one formatted entry per stored row, as many entries as rows, and nothing else |
| App.GetActors | agency/app.py:42-52 | 404 exactly when the actors table is empty. Otherwise `success: true` and an `actors` list formatting every stored actor |
| App.GetMovies | agency/app.py:55-65 | 404 exactly when the movies table is empty. Otherwise `success: true` and a `movies` list formatting every stored movie |
| App.FreshDatabase | agency/models.py:20-27 | A freshly created database answers 404 on both listings. The first actor added gets id 1 and is then the only actor listed |
| App.AddActor | agency/app.py:68-86 | 422 exactly when name, age or gender is absent. An unhandled error (500) comes exactly when all three are present and either some value cannot be stored or the id sequence is used up. A value cannot be stored if it is a JSON object or a string holding NUL. A failure leaves the table unchanged. Otherwise one row with those three values is added under the sequence's next value (at most 0x7FFF_FFFF), the sequence advances by one, and the response echoes its format with that id |
| App.AddMovie | agency/app.py:89-105 | 422 exactly when title or release is absent. An unhandled error comes exactly when both are present and either a value cannot be stored or the id sequence is used up. A failure leaves the table unchanged. Otherwise one row is added under the sequence's next value, the sequence advances by one, and the row is echoed with that id |
| App.PatchActor | agency/app.py:118-127 | Each of name, age and gender takes the body's value exactly when the body supplies a truthy value for it, and keeps its old value otherwise |
| App.PatchActorOverwritesSuppliedFields | agency/app.py:118-127 | After the patch, the formatted actor keeps its id. Each other field holds the body's value if the body supplies a truthy value for it, and its old value otherwise |
| App.PatchActorIdempotent | agency/app.py:118-127 | Applying a body twice equals applying it once. A body that supplies no truthy field changes nothing |
| App.UpdateActor | agency/app.py:108-134 | 404 exactly when the id is not stored, which includes 0. An unhandled error comes exactly when the id is stored and a supplied truthy field cannot be stored. A failure leaves the table unchanged. Otherwise only that row is replaced by its patched version and echoed, and the id sequence stays |
| App.PatchMovieAsWritten | agency/app.py:147-153 | The patch as written never changes the title |
| App.PatchMovie | agency/app.py:147-153 | Corrected: title and release each take the body's value exactly when the body supplies a truthy value for them, and keep their old value otherwise |
| App.PatchMovieOverwritesSuppliedFields | agency/app.py:147-153 | With the title assigned to `title`, the formatted movie keeps its id. Each other field is the body's truthy value or the old one |
| App.UpdateMovieAsWritten | agency/app.py:137-160 | 404 exactly when the id is not stored. An unhandled error comes exactly when the id is stored and a supplied release cannot be stored; the title goes to a plain attribute and never reaches the database. A failure leaves the table unchanged. Otherwise the stored title is kept, release is overwritten only by a truthy body value, and other rows stay |
| App.UpdateMovie | agency/app.py:137-160 | Corrected: 404 exactly when the id is not stored, and an unhandled error exactly when a supplied title or release cannot be stored. A failure leaves the table unchanged. Otherwise only that row is replaced by its patched version and echoed |
| App.TitlePatchIsLost | agency/app.py:149-150 | If a body supplies a new, storable title, the title is neither stored nor echoed as written. The corrected handler stores and echoes it |
| App.ServedTitlePatchIsLost | agency/app.py:137-160 | An authorised PATCH /movies/<id> that supplies a new title is answered 200, yet the stored title and the echoed title are both the old one |
| App.DeleteRow | agency/app.py:163-196 | 404 with the table unchanged exactly when the id is not stored. Otherwise exactly that row is removed, and the response carries the id |
| App.DeleteActor | agency/app.py:163-178 | 404 exactly when the id is not stored. Otherwise only that actor is removed, every other row keeps its value, and `actor_id` is returned. The id sequence never moves back |
| App.DeleteMovie | agency/app.py:181-196 | 404 exactly when the id is not stored. Otherwise only that movie is removed, every other row keeps its value, and `movie_id` is returned. The id sequence never moves back |
| App.Respond | agency/app.py:201-239 | The client sees the outcome's status. An AuthError is answered with its own status and description. 401, 403, 404 and 422 aborts get a JSON error, and an unhandled exception gets the 500 page |
| App.HandlerMessage | agency/app.py:201-231 | A JSON error handler is registered exactly for 401, 403, 404 and 422 |
| App.Permission | agency/app.py:67-196 | The two GET routes carry no `requires_auth`, and every other route names a permission. An actor route's permission is one of `post:actors`, `patch:actor`, `delete:actor`, and a movie route's is not |
| App.Dispatch | agency/app.py:41-196 | Each route runs its own handler as written on its own table: GET lists, POST adds, PATCH updates (PATCH /movies by the handler that drops the title), DELETE deletes. The other table is untouched, and the GET routes change nothing. A failed route changes nothing. Success bodies carry `success: true`, and the only other outcomes are 404, 422 and an unhandled error |
| App.RequiresAuth | starter/auth/auth.py:164-174 | The wrapped handler runs exactly when every check passes. Otherwise the store is untouched and the check's failure is the outcome |
| App.Serve | agency/app.py:41-239 | The table invariant is kept. A GET route is answered by its handler through the error handlers. A protected route is answered by its handler when every check passes. Otherwise the first failing check's outcome goes through the error handlers and the store is untouched. The store changes only when the route names a permission and every check passes |
| App.StoreChangesOnlyWithPermission | agency/app.py:67-196 | A request that changes the store was answered 200. Its header was accepted by the parser as written, and its token decodes to a payload granting the route's permission |
| App.AuthorizedRequestRunsHandler | starter/auth/auth.py:167-171 | A protected request whose checks all pass gets the response of its route's handler, and the store that handler leaves |
| App.AuthErrorReachesClient | agency/app.py:233-239 | An AuthError raised by any check is answered with its own status, with `error` repeating that status and `message` its description. The store is untouched |
| App.ForbiddenPayloadGets403 | starter/auth/auth.py:81-85 | A token that decodes to a payload whose permissions claim lacks the route's permission gets 403 "Request is forbidden." and changes nothing |
| App.ExpiredTokenGets401 | starter/auth/auth.py:145-149 | A token the library reports as expired gets 401 "Token has expired." and changes nothing |
| App.PublicRoutesIgnoreCredentials | agency/app.py:41-65 | The two GET routes answer the same whatever the header and identity provider, and never change the store |
| App.MissingHeaderIsRejected | starter/auth/auth.py:41-47 | A protected route called without an `Authorization` header gets 401 "Authorization header not found." and changes nothing |
| App.BareSchemeGetsServerError | starter/auth/auth.py:57-69 | A protected route called with the header `Bearer` (any case) and nothing else gets the 500 page and changes nothing |
| App.ResponsesAreWellFormed | agency/app.py:201-239 | Every answer is one of three things: a 200 with `success: true`, a JSON error with status 401, 403, 404 or 422, `success: false` and the status repeated in `error`, or the 500 page |

## Left out

- Flask routing, JSON body parsing and CORS headers (agency/app.py:17-35): a request arrives as a `Route` value. Method mismatches (405) and unknown paths are not modelled.
- Request bodies that are not JSON objects (`get_json()` returning None, a list or a string): they are not modelled. Bodies are `map<string, Json>`.
- SQLAlchemy sessions, `setup_db` and database configuration: each table is a map plus an id sequence.
- A JSON object, or a string holding a NUL character, cannot be bound by the database driver as a field value. The commit raises, so the model answers 500 and stores nothing (`Models.Storable`). The 32-bit `db.Integer` id sequence ends at 2147483647, after which `insert()` raises and the model answers 500 (`Models.Exhausted`). Both readings of the driver and database were not checked against a running database. Lists, numbers, booleans and null are taken to be stored as sent. The database's conversion of them into text, and unstorable values nested inside a list, are not modelled. Neither is re-reading the values after commit.
- Models.Insert: the table operation itself takes an unbounded id; the bound on the sequence is checked by the handlers that insert (`App.AddActor`, `App.AddMovie`).
- Models.AllRows: the SQL behind `query.all()` has no ORDER BY. The model lists rows in ascending id order, which is one of the orders the database may return.
- `get_json_data` and the download of the key set (starter/auth/auth.py:18-25, 94): the downloaded document is an input (`False` for a non-200 answer). Network exceptions are not modelled.
- `jwt.get_unverified_headers` and `jwt.decode` with RS256, audience and issuer (starter/auth/auth.py:102, 136-142): these library calls are inputs of type `IdentityProvider`. The model keeps what they return, not how they work.
- JSON numbers are integers. Floating-point values are not modelled.
- Auth.ScanKeysPicksLastMatch: `kid` values are compared as JSON values. Python's cross-type equalities, such as `1 == True`, are not modelled.
- Text.Lower: lowers ASCII letters only. No other character's lower-case form is an ASCII letter other than 'k' or 'i', so the comparison with "bearer" is exact.
- `__repr__` of both models: used only for debugging.
- starter/app.py and starter/models.py: an earlier, non-working copy of the service, replaced by agency/app.py and agency/models.py.

## Findings

| source | as written | input that shows it | evidently intended | confidence | as-written member | corrected member |
|---|---|---|---|---|---|---|
| agency/app.py:149-150 | `movie.name = data['title']` sets an attribute that is not a column, so the title is never updated and the old title is echoed | PATCH `/movies/1` with body `{"title": "Foo"}` on a movie titled "Invisible Man" | `movie.title = data['title']` | high, not executed | App.UpdateMovieAsWritten, App.TitlePatchIsLost, App.ServedTitlePatchIsLost | App.UpdateMovie |
| starter/auth/auth.py:145-161 | `except Exception` comes before `except jwt.JWTClaimsError`, so the `invalid_decode` handler is dead. A wrong audience or issuer is reported as "Token is invalid." | a correctly signed token whose audience is not `dev` | claims errors reported as 422 `invalid_decode` "Invalid decode configuration." | high, not executed | Auth.DecodeFailureAsWritten, Auth.ClaimsHandlerUnreachable | Auth.DecodeFailure |
| starter/auth/auth.py:51-63 | The guard checks `len(split_auth_header) == 0`, which never holds. A one-word header spelling "bearer" reaches `split_auth_header[1]`, raises IndexError and is answered with a 500 page | `Authorization: Bearer` | a `len(split_auth_header) < 2` guard before `split_auth_header[1]`, answered with 401 "Invalid token header." | medium, not executed | Auth.GetTokenAuthHeaderAsWritten, Auth.SingleWordHeaderCrashes | Auth.GetTokenAuthHeader |

The request path (`Auth.Authorize`, `Auth.VerifyDecodeJwt`, `App.Dispatch`, `App.Serve`) follows the code as written. The corrected members stand beside it and are compared with the as-written ones by the lemmas named in the table. With the guard placed after the scheme test, the header fix changes the answer only for a bare `Bearer` header (`Auth.HeaderFixChangesOnlyTheCrash`).

=== FILE: app.dfy ===
/**
 The route handlers of the agency service as transitions of the store,
 the error handlers that turn an outcome into an HTTP response, the
 `requires_auth` wrapper, and the request dispatch that ties them together.
 */
module App {
  import opened Outcomes
  import opened JsonValue
  import opened Models
  import opened Auth
  import opened Text

  /** Both tables of the database. */
  datatype Db = Db(actors: Table<ActorData>, movies: Table<MovieData>)

  predicate ValidDb(db: Db) {
    Valid(db.actors) && Valid(db.movies)
  }

  /** The body of every successful route: `{'success': True, key: value}`. */
  function SuccessBody(key: string, v: Json): Json {
    JObj(map["success" := JBool(true), key := v])
  }

  predicate IsSuccessBody(body: Json) {
    body.JObj? && "success" in body.fields && body.fields["success"] == JBool(true)
  }

  // ---------------------------------------------------------------------
  // GET /actors, GET /movies
  // ---------------------------------------------------------------------

  /** `xs` holds one formatted entry per stored row and nothing else. */
  ghost predicate ListsEveryRow<R>(xs: seq<Json>, t: Table<R>, format: (nat, R) -> Json) {
    && |xs| == |t.rows|
    && (set x | x in xs) == (set id | id in t.rows :: format(id, t.rows[id]))
  }

  /** `[row.format() for row in Model.query.all()]`. */
  function Listing<R>(t: Table<R>, format: (nat, R) -> Json): (xs: seq<Json>)
    requires Valid(t)
    ensures ListsEveryRow(xs, t, format)
  {
    var all := AllRows(t);
    var xs := seq(|all|, j requires 0 <= j < |all| => format(all[j].0, all[j].1));
    ListingProof(t, format, all, xs);
    xs
  }

  lemma ListingProof<R>(t: Table<R>, format: (nat, R) -> Json, all: seq<(nat, R)>, xs: seq<Json>)
    requires Valid(t) && all == AllRows(t)
    requires |xs| == |all| && forall j :: 0 <= j < |all| ==> xs[j] == format(all[j].0, all[j].1)
    ensures ListsEveryRow(xs, t, format)
  {
    AllRowsListsEveryRow(t);
    var listed := set x | x in xs;
    var stored := set id | id in t.rows :: format(id, t.rows[id]);
    forall x | x in listed
      ensures x in stored
    {
      var j :| 0 <= j < |xs| && xs[j] == x;
      var id := all[j].0;
      assert id in t.rows && x == format(id, t.rows[id]);
    }
    forall x | x in stored
      ensures x in listed
    {
      var id :| id in t.rows && x == format(id, t.rows[id]);
      var j :| 0 <= j < |all| && all[j].0 == id;
      assert xs[j] == x;
    }
  }

  /** `get_actors()`: 404 on an empty table, otherwise every actor. */
  function GetActors(t: Table<ActorData>): (r: Outcome<Json>)
    requires Valid(t)
    ensures r.Ok? || r == Abort(404)
    ensures r == Abort(404) <==> |t.rows| == 0
    ensures r.Ok? ==>
      && IsSuccessBody(r.value) && "actors" in r.value.fields
      && r.value.fields["actors"].JArr? && ListsEveryRow(r.value.fields["actors"].items, t, FormatActor)
  {
    var xs := Listing(t, FormatActor);
    if |xs| == 0 then Abort(404) else Ok(SuccessBody("actors", JArr(xs)))
  }

  /** `get_movies()`: 404 on an empty table, otherwise every movie. */
  function GetMovies(t: Table<MovieData>): (r: Outcome<Json>)
    requires Valid(t)
    ensures r.Ok? || r == Abort(404)
    ensures r == Abort(404) <==> |t.rows| == 0
    ensures r.Ok? ==>
      && IsSuccessBody(r.value) && "movies" in r.value.fields
      && r.value.fields["movies"].JArr? && ListsEveryRow(r.value.fields["movies"].items, t, FormatMovie)
  {
    var xs := Listing(t, FormatMovie);
    if |xs| == 0 then Abort(404) else Ok(SuccessBody("movies", JArr(xs)))
  }

  /** A freshly created database lists nothing, and the first actor added
      to it gets id 1 and is then the only actor listed. */
  lemma FreshDatabase(data: Object)
    requires "name" in data && "age" in data && "gender" in data
    requires ActorStorable(ActorData(data["name"], data["age"], data["gender"]))
    ensures GetActors(EmptyTable()) == Abort(404) && GetMovies(EmptyTable()) == Abort(404)
    ensures var (t, o) := AddActor(EmptyTable(), data);
      && o.Ok? && t.rows.Keys == {1}
      && o.value.fields["actor"] == FormatActor(1, ActorData(data["name"], data["age"], data["gender"]))
      && GetActors(t).Ok? && |GetActors(t).value.fields["actors"].items| == 1
  {
  }

  // ---------------------------------------------------------------------
  // POST /add-actor, POST /add-movie
  // ---------------------------------------------------------------------

  /** `after` is `before` with one more row, `r`, under an id `before` did not use. */
  ghost predicate AddsOneRow<R>(before: Table<R>, after: Table<R>, id: nat, r: R) {
    && id !in before.rows
    && after.rows == before.rows[id := r]
  }

  /** `add_actor()` with the request body `data`. */
  function AddActor(t: Table<ActorData>, data: Object): (res: (Table<ActorData>, Outcome<Json>))
    requires Valid(t)
    ensures Valid(res.0)
    ensures res.1.Ok? || res.1 == Abort(422) || res.1 == Crash
    ensures res.1 == Abort(422) <==> "name" !in data || "age" !in data || "gender" !in data
    ensures res.1 == Crash <==>
      "name" in data && "age" in data && "gender" in data
      && (!ActorStorable(ActorData(data["name"], data["age"], data["gender"])) || Exhausted(t))
    ensures !res.1.Ok? ==> res.0 == t
    ensures res.1.Ok? ==>
      var a := ActorData(data["name"], data["age"], data["gender"]);
      exists id :: AddsOneRow(t, res.0, id, a) && res.1.value == SuccessBody("actor", FormatActor(id, a))
    ensures res.1.Ok? ==>
      && 1 <= t.nextId <= MaxSerial
      && res.0.nextId == t.nextId + 1
      && res.0.rows.Keys == t.rows.Keys + {t.nextId}
      && res.1.value.fields["actor"].fields["id"] == JNum(t.nextId)
  {
    if "name" !in data then (t, Abort(422))
    else if "age" !in data then (t, Abort(422))
    else if "gender" !in data then (t, Abort(422))
    else
      var a := ActorData(data["name"], data["age"], data["gender"]);
      if !ActorStorable(a) || Exhausted(t) then (t, Crash)
      else
        var (t', id) := Insert(t, a);
        (t', Ok(SuccessBody("actor", FormatActor(id, a))))
  }

  /** `add_movie()` with the request body `data`. */
  function AddMovie(t: Table<MovieData>, data: Object): (res: (Table<MovieData>, Outcome<Json>))
    requires Valid(t)
    ensures Valid(res.0)
    ensures res.1.Ok? || res.1 == Abort(422) || res.1 == Crash
    ensures res.1 == Abort(422) <==> "title" !in data || "release" !in data
    ensures res.1 == Crash <==>
      "title" in data && "release" in data
      && (!MovieStorable(MovieData(data["title"], data["release"])) || Exhausted(t))
    ensures !res.1.Ok? ==> res.0 == t
    ensures res.1.Ok? ==>
      var m := MovieData(data["title"], data["release"]);
      exists id :: AddsOneRow(t, res.0, id, m) && res.1.value == SuccessBody("movie", FormatMovie(id, m))
    ensures res.1.Ok? ==>
      && 1 <= t.nextId <= MaxSerial
      && res.0.nextId == t.nextId + 1
      && res.0.rows.Keys == t.rows.Keys + {t.nextId}
      && res.1.value.fields["movie"].fields["id"] == JNum(t.nextId)
  {
    if "title" !in data then (t, Abort(422))
    else if "release" !in data then (t, Abort(422))
    else
      var m := MovieData(data["title"], data["release"]);
      if !MovieStorable(m) || Exhausted(t) then (t, Crash)
      else
        var (t', id) := Insert(t, m);
        (t', Ok(SuccessBody("movie", FormatMovie(id, m))))
  }

  // ---------------------------------------------------------------------
  // PATCH /actors/<id>, PATCH /movies/<id>
  // ---------------------------------------------------------------------

  /** `if key in data and data[key]`: the body supplies a new value. */
  predicate Supplies(data: Object, key: string) {
    key in data && Truthy(data[key])
  }

  /** The body assigns `key` a value the database cannot store, so the
      commit of the patched row raises. */
  predicate PatchFails(data: Object, key: string) {
    Supplies(data, key) && !Storable(data[key])
  }

  /** The field assignments of `update_actor()`: a field takes the body's
      value exactly when the body supplies a truthy one. */
  function PatchActor(a: ActorData, data: Object): (a': ActorData)
    ensures Supplies(data, "name") ==> a'.name == data["name"]
    ensures !Supplies(data, "name") ==> a'.name == a.name
    ensures Supplies(data, "age") ==> a'.age == data["age"]
    ensures !Supplies(data, "age") ==> a'.age == a.age
    ensures Supplies(data, "gender") ==> a'.gender == data["gender"]
    ensures !Supplies(data, "gender") ==> a'.gender == a.gender
  {
    ActorData(
      if Supplies(data, "name") then data["name"] else a.name,
      if Supplies(data, "age") then data["age"] else a.age,
      if Supplies(data, "gender") then data["gender"] else a.gender)
  }

  /** Seen through `format()`, a patch replaces exactly the fields the body
      supplies a truthy value for; the id and every other field stay. */
  lemma PatchActorOverwritesSuppliedFields(id: nat, a: ActorData, data: Object, key: string)
    requires key in FormatActor(id, a).fields
    ensures key == "id" ==> FormatActor(id, PatchActor(a, data)).fields[key] == JNum(id)
    ensures key != "id" ==>
      FormatActor(id, PatchActor(a, data)).fields[key] == if Supplies(data, key) then data[key] else FormatActor(id, a).fields[key]
  {
  }

  /** Applying the same body twice is the same as applying it once, and a
      body that supplies nothing leaves the actor as it was. */
  lemma PatchActorIdempotent(a: ActorData, data: Object)
    ensures PatchActor(PatchActor(a, data), data) == PatchActor(a, data)
    ensures !Supplies(data, "name") && !Supplies(data, "age") && !Supplies(data, "gender")
      ==> PatchActor(a, data) == a
  {
  }

  /** `update_actor(actor_id)` with the request body `data`. */
  function UpdateActor(t: Table<ActorData>, id: nat, data: Object): (res: (Table<ActorData>, Outcome<Json>))
    requires Valid(t)
    ensures Valid(res.0) && res.0.nextId == t.nextId
    ensures res.1.Ok? || res.1 == Abort(404) || res.1 == Crash
    ensures res.1 == Abort(404) <==> id !in t.rows
    ensures res.1 == Crash <==>
      id in t.rows && (PatchFails(data, "name") || PatchFails(data, "age") || PatchFails(data, "gender"))
    ensures !res.1.Ok? ==> res.0 == t
    ensures res.1.Ok? ==>
      && res.0.rows == t.rows[id := PatchActor(t.rows[id], data)]
      && res.1 == Ok(SuccessBody("actor", FormatActor(id, res.0.rows[id])))
  {
    if id == 0 then (t, Abort(404))
    else match Get(t, id)
      case None => (t, Abort(404))
      case Some(a) =>
        if PatchFails(data, "name") || PatchFails(data, "age") || PatchFails(data, "gender") then (t, Crash)
        else
          var patched := PatchActor(a, data);
          (Update(t, id, patched), Ok(SuccessBody("actor", FormatActor(id, patched))))
  }

  /** The field assignments of `update_movie()` as written: the new title is
      assigned to `movie.name`, which is not a column, so only `release`
      can change. */
  function PatchMovieAsWritten(m: MovieData, data: Object): (m': MovieData)
    ensures m'.title == m.title
  {
    MovieData(m.title, if Supplies(data, "release") then data["release"] else m.release)
  }

  /** The field assignments of `update_movie()` with the title written to
      the `title` column. */
  function PatchMovie(m: MovieData, data: Object): (m': MovieData)
    ensures Supplies(data, "title") ==> m'.title == data["title"]
    ensures !Supplies(data, "title") ==> m'.title == m.title
    ensures Supplies(data, "release") ==> m'.release == data["release"]
    ensures !Supplies(data, "release") ==> m'.release == m.release
  {
    MovieData(
      if Supplies(data, "title") then data["title"] else m.title,
      if Supplies(data, "release") then data["release"] else m.release)
  }

  /** Seen through `format()`, the corrected patch replaces exactly the
      fields the body supplies a truthy value for. */
  lemma PatchMovieOverwritesSuppliedFields(id: nat, m: MovieData, data: Object, key: string)
    requires key in FormatMovie(id, m).fields
    ensures key == "id" ==> FormatMovie(id, PatchMovie(m, data)).fields[key] == JNum(id)
    ensures key != "id" ==>
      FormatMovie(id, PatchMovie(m, data)).fields[key] == if Supplies(data, key) then data[key] else FormatMovie(id, m).fields[key]
  {
  }

  /** `update_movie(movie_id)` as written. */
  function UpdateMovieAsWritten(t: Table<MovieData>, id: nat, data: Object): (res: (Table<MovieData>, Outcome<Json>))
    requires Valid(t)
    ensures Valid(res.0) && res.0.nextId == t.nextId
    ensures res.1.Ok? || res.1 == Abort(404) || res.1 == Crash
    ensures res.1 == Abort(404) <==> id !in t.rows
    ensures res.1 == Crash <==> id in t.rows && PatchFails(data, "release")
    ensures !res.1.Ok? ==> res.0 == t
    ensures res.1.Ok? ==>
      && res.0.rows.Keys == t.rows.Keys
      && res.0.rows[id].title == t.rows[id].title
      && res.0.rows[id].release == (if Supplies(data, "release") then data["release"] else t.rows[id].release)
      && (forall other :: other in t.rows && other != id ==> res.0.rows[other] == t.rows[other])
      && res.1 == Ok(SuccessBody("movie", FormatMovie(id, res.0.rows[id])))
  {
    if id == 0 then (t, Abort(404))
    else match Get(t, id)
      case None => (t, Abort(404))
      case Some(m) =>
        if PatchFails(data, "release") then (t, Crash)
        else
          var patched := PatchMovieAsWritten(m, data);
          (Update(t, id, patched), Ok(SuccessBody("movie", FormatMovie(id, patched))))
  }

  /** `update_movie(movie_id)` with the title written to the `title` column. */
  function UpdateMovie(t: Table<MovieData>, id: nat, data: Object): (res: (Table<MovieData>, Outcome<Json>))
    requires Valid(t)
    ensures Valid(res.0) && res.0.nextId == t.nextId
    ensures res.1.Ok? || res.1 == Abort(404) || res.1 == Crash
    ensures res.1 == Abort(404) <==> id !in t.rows
    ensures res.1 == Crash <==> id in t.rows && (PatchFails(data, "title") || PatchFails(data, "release"))
    ensures !res.1.Ok? ==> res.0 == t
    ensures res.1.Ok? ==>
      && res.0.rows == t.rows[id := PatchMovie(t.rows[id], data)]
      && res.1 == Ok(SuccessBody("movie", FormatMovie(id, res.0.rows[id])))
  {
    if id == 0 then (t, Abort(404))
    else match Get(t, id)
      case None => (t, Abort(404))
      case Some(m) =>
        if PatchFails(data, "title") || PatchFails(data, "release") then (t, Crash)
        else
          var patched := PatchMovie(m, data);
          (Update(t, id, patched), Ok(SuccessBody("movie", FormatMovie(id, patched))))
  }

  /** A PATCH whose body supplies a new title: as written the stored and
      echoed title stay as they were; corrected, both become the new title. */
  lemma TitlePatchIsLost(t: Table<MovieData>, id: nat, data: Object)
    requires Valid(t) && id in t.rows
    requires Supplies(data, "title") && data["title"] != t.rows[id].title
    requires Storable(data["title"]) && !PatchFails(data, "release")
    ensures UpdateMovieAsWritten(t, id, data).0.rows[id].title != data["title"]
    ensures UpdateMovieAsWritten(t, id, data).1.value.fields["movie"].fields["title"] != data["title"]
    ensures UpdateMovie(t, id, data).0.rows[id].title == data["title"]
    ensures UpdateMovie(t, id, data).1.value.fields["movie"].fields["title"] == data["title"]
  {
  }

  // ---------------------------------------------------------------------
  // DELETE /actors/<id>, DELETE /movies/<id>
  // ---------------------------------------------------------------------

  /** The shared shape of `delete_actor` and `delete_movie`. */
  function DeleteRow<R>(t: Table<R>, id: nat, key: string): (res: (Table<R>, Outcome<Json>))
    requires Valid(t)
    ensures Valid(res.0) && res.0.nextId == t.nextId
    ensures res.1.Ok? || res.1 == Abort(404)
    ensures res.1 == Abort(404) <==> id !in t.rows
    ensures id !in t.rows ==> res.0 == t
    ensures id in t.rows ==> res.0.rows == t.rows - {id} && res.1 == Ok(SuccessBody(key, JNum(id)))
  {
    if id == 0 then (t, Abort(404))
    else match Get(t, id)
      case None => (t, Abort(404))
      case Some(_) => (Delete(t, id), Ok(SuccessBody(key, JNum(id))))
  }

  /** `delete_actor(actor_id)`. */
  function DeleteActor(t: Table<ActorData>, id: nat): (res: (Table<ActorData>, Outcome<Json>))
    requires Valid(t)
    ensures Valid(res.0) && res.0.nextId == t.nextId
    ensures res.1 == Abort(404) <==> id !in t.rows
    ensures id !in t.rows ==> res.0 == t
    ensures id in t.rows ==>
      && res.0.rows.Keys == t.rows.Keys - {id}
      && (forall other :: other in res.0.rows ==> res.0.rows[other] == t.rows[other])
      && res.1 == Ok(SuccessBody("actor_id", JNum(id)))
  {
    DeleteRow(t, id, "actor_id")
  }

  /** `delete_movie(movie_id)`. */
  function DeleteMovie(t: Table<MovieData>, id: nat): (res: (Table<MovieData>, Outcome<Json>))
    requires Valid(t)
    ensures Valid(res.0) && res.0.nextId == t.nextId
    ensures res.1 == Abort(404) <==> id !in t.rows
    ensures id !in t.rows ==> res.0 == t
    ensures id in t.rows ==>
      && res.0.rows.Keys == t.rows.Keys - {id}
      && (forall other :: other in res.0.rows ==> res.0.rows[other] == t.rows[other])
      && res.1 == Ok(SuccessBody("movie_id", JNum(id)))
  {
    DeleteRow(t, id, "movie_id")
  }

  // ---------------------------------------------------------------------
  // Error handlers
  // ---------------------------------------------------------------------

  /** What the client receives: a JSON body with a status, or Flask's own
      page for a status no handler is registered for. */
  datatype Response = JsonResponse(status: nat, body: Json) | DefaultPage(status: nat)

  function ErrorBody(status: nat, message: string): Json {
    JObj(map["success" := JBool(false), "error" := JNum(status), "message" := JStr(message)])
  }

  /** The messages of the `@app.errorhandler(code)` registrations. */
  function HandlerMessage(status: nat): (m: Option<string>)
    ensures m.Some? <==> status in {401, 403, 404, 422}
  {
    if status == 401 then Some("Authentication error.")
    else if status == 403 then Some("Forbidden.")
    else if status == 404 then Some("Item not found.")
    else if status == 422 then Some("Request could not be processed.")
    else None
  }

  /** Flask plus the registered error handlers. An AuthError is answered by
      its own handler with its status and description. */
  function Respond(o: Outcome<Json>): (resp: Response)
    ensures resp.status == StatusOf(o)
    ensures o.Ok? ==> resp == JsonResponse(200, o.value)
    ensures o.Raise? ==> resp == JsonResponse(o.error.status, ErrorBody(o.error.status, o.error.description))
    ensures o.Abort? ==> (resp.JsonResponse? <==> HandlerMessage(o.status).Some?)
    ensures o.Crash? ==> resp == DefaultPage(500)
  {
    match o
    case Ok(body) => JsonResponse(200, body)
    case Raise(e) => JsonResponse(e.status, ErrorBody(e.status, e.description))
    case Abort(s) =>
      (match HandlerMessage(s)
       case Some(message) => JsonResponse(s, ErrorBody(s, message))
       case None => DefaultPage(s))
    case Crash => DefaultPage(500)
  }

  // ---------------------------------------------------------------------
  // Routing and requires_auth
  // ---------------------------------------------------------------------

  datatype Route =
    | ListActorsRoute
    | ListMoviesRoute
    | AddActorRoute(actorBody: Object)
    | AddMovieRoute(movieBody: Object)
    | UpdateActorRoute(actorId: nat, actorPatch: Object)
    | UpdateMovieRoute(movieId: nat, moviePatch: Object)
    | DeleteActorRoute(deletedActor: nat)
    | DeleteMovieRoute(deletedMovie: nat)

  /** The permission each route's `@requires_auth` names; the two GET
      routes are not wrapped. */
  function Permission(route: Route): (p: Option<string>)
    ensures p.None? <==> route.ListActorsRoute? || route.ListMoviesRoute?
    ensures p.Some? ==> (OnActors(route) <==> p.value in {"post:actors", "patch:actor", "delete:actor"})
  {
    match route
    case ListActorsRoute => None
    case ListMoviesRoute => None
    case AddActorRoute(_) => Some("post:actors")
    case AddMovieRoute(_) => Some("post:movies")
    case UpdateActorRoute(_, _) => Some("patch:actor")
    case UpdateMovieRoute(_, _) => Some("patch:movie")
    case DeleteActorRoute(_) => Some("delete:actor")
    case DeleteMovieRoute(_) => Some("delete:movie")
  }

  predicate OnActors(route: Route) {
    route.ListActorsRoute? || route.AddActorRoute? || route.UpdateActorRoute? || route.DeleteActorRoute?
  }

  /** Runs an actor route's handler on the actors table. */
  function ActorHandler(t: Table<ActorData>, route: Route): (res: (Table<ActorData>, Outcome<Json>))
    requires Valid(t) && OnActors(route)
    ensures route.ListActorsRoute? ==> res == (t, GetActors(t))
    ensures route.AddActorRoute? ==> res == AddActor(t, route.actorBody)
    ensures route.UpdateActorRoute? ==> res == UpdateActor(t, route.actorId, route.actorPatch)
    ensures route.DeleteActorRoute? ==> res == DeleteActor(t, route.deletedActor)
    ensures Valid(res.0)
    ensures Permission(route).None? ==> res.0 == t
    ensures !res.1.Ok? ==> res.0 == t
    ensures res.1.Ok? ==> IsSuccessBody(res.1.value)
    ensures res.1.Ok? || res.1 == Abort(404) || res.1 == Abort(422) || res.1 == Crash
  {
    match route
    case ListActorsRoute => (t, GetActors(t))
    case AddActorRoute(body) => AddActor(t, body)
    case UpdateActorRoute(id, body) => UpdateActor(t, id, body)
    case DeleteActorRoute(id) => DeleteActor(t, id)
  }

  /** Runs a movie route's handler on the movies table. */
  function MovieHandler(t: Table<MovieData>, route: Route): (res: (Table<MovieData>, Outcome<Json>))
    requires Valid(t) && !OnActors(route)
    ensures route.ListMoviesRoute? ==> res == (t, GetMovies(t))
    ensures route.AddMovieRoute? ==> res == AddMovie(t, route.movieBody)
    ensures route.UpdateMovieRoute? ==> res == UpdateMovieAsWritten(t, route.movieId, route.moviePatch)
    ensures route.DeleteMovieRoute? ==> res == DeleteMovie(t, route.deletedMovie)
    ensures Valid(res.0)
    ensures Permission(route).None? ==> res.0 == t
    ensures !res.1.Ok? ==> res.0 == t
    ensures res.1.Ok? ==> IsSuccessBody(res.1.value)
    ensures res.1.Ok? || res.1 == Abort(404) || res.1 == Abort(422) || res.1 == Crash
  {
    match route
    case ListMoviesRoute => (t, GetMovies(t))
    case AddMovieRoute(body) => AddMovie(t, body)
    case UpdateMovieRoute(id, body) => UpdateMovieAsWritten(t, id, body)
    case DeleteMovieRoute(id) => DeleteMovie(t, id)
  }

  /** Runs the route's handler; only the route's own table can change. */
  function Dispatch(db: Db, route: Route): (res: (Db, Outcome<Json>))
    requires ValidDb(db)
    ensures OnActors(route) ==>
      res == (db.(actors := ActorHandler(db.actors, route).0), ActorHandler(db.actors, route).1)
    ensures !OnActors(route) ==>
      res == (db.(movies := MovieHandler(db.movies, route).0), MovieHandler(db.movies, route).1)
    ensures ValidDb(res.0)
    ensures OnActors(route) ==> res.0.movies == db.movies
    ensures !OnActors(route) ==> res.0.actors == db.actors
    ensures Permission(route).None? ==> res.0 == db
    ensures !res.1.Ok? ==> res.0 == db
    ensures res.1.Ok? ==> IsSuccessBody(res.1.value)
    ensures res.1.Ok? || res.1 == Abort(404) || res.1 == Abort(422) || res.1 == Crash
  {
    if OnActors(route) then
      var (t, o) := ActorHandler(db.actors, route); (db.(actors := t), o)
    else
      var (t, o) := MovieHandler(db.movies, route); (db.(movies := t), o)
  }

  /** `requires_auth(permission)` around a handler: the handler runs only if
      the header parses, the token decodes and the permission is granted;
      otherwise the store is untouched and the failure propagates as is. */
  function RequiresAuth(permission: string, header: Option<string>, idp: IdentityProvider, db: Db, route: Route): (res: (Db, Outcome<Json>))
    requires ValidDb(db)
    ensures ValidDb(res.0)
    ensures Authorize(permission, header, idp).Ok? ==> res == Dispatch(db, route)
    ensures !Authorize(permission, header, idp).Ok? ==>
      res.0 == db && res.1 == Authorize(permission, header, idp).PropagateFailure()
  {
    var check := Authorize(permission, header, idp);
    if check.Ok? then Dispatch(db, route) else (db, check.PropagateFailure())
  }

  /** An HTTP request: the route it matched and its `Authorization` header. */
  datatype Request = Request(route: Route, authorization: Option<string>)

  /** The service handling one request against the database. */
  function Serve(db: Db, req: Request, idp: IdentityProvider): (res: (Db, Response))
    requires ValidDb(db)
    ensures ValidDb(res.0)
    ensures res.0 != db ==>
      Permission(req.route).Some? && Authorize(Permission(req.route).value, req.authorization, idp).Ok?
    ensures Permission(req.route).None? ==>
      res == (Dispatch(db, req.route).0, Respond(Dispatch(db, req.route).1))
    ensures Permission(req.route).Some? ==>
      var check := Authorize(Permission(req.route).value, req.authorization, idp);
      && (check.Ok? ==> res == (Dispatch(db, req.route).0, Respond(Dispatch(db, req.route).1)))
      && (!check.Ok? ==> res == (db, Respond(check.PropagateFailure())))
  {
    var (db', outcome) :=
      match Permission(req.route)
      case None => Dispatch(db, req.route)
      case Some(p) => RequiresAuth(p, req.authorization, idp, db, req.route);
    (db', Respond(outcome))
  }

  /** The store changes only for a request whose bearer token decodes to a
      payload that grants the permission the route names. */
  lemma StoreChangesOnlyWithPermission(db: Db, req: Request, idp: IdentityProvider)
    requires ValidDb(db)
    requires Serve(db, req, idp).0 != db
    ensures Permission(req.route).Some?
    ensures GetTokenAuthHeaderAsWritten(req.authorization).Ok?
    ensures var token := GetTokenAuthHeaderAsWritten(req.authorization).value;
      VerifyDecodeJwt(token, idp).Ok? && Granted(VerifyDecodeJwt(token, idp).value, Permission(req.route).value)
    ensures Serve(db, req, idp).1.status == 200
  {
  }

  /** A protected request whose checks pass is answered by its route's
      handler, as written, through the error handlers. */
  lemma AuthorizedRequestRunsHandler(db: Db, req: Request, idp: IdentityProvider)
    requires ValidDb(db) && Permission(req.route).Some?
    requires Authorize(Permission(req.route).value, req.authorization, idp).Ok?
    ensures Serve(db, req, idp) == (Dispatch(db, req.route).0, Respond(Dispatch(db, req.route).1))
  {
  }

  /** An AuthError raised by any of the checks reaches the client with its own
      status and description, and the store is untouched. */
  lemma AuthErrorReachesClient(db: Db, req: Request, idp: IdentityProvider)
    requires ValidDb(db) && Permission(req.route).Some?
    requires Authorize(Permission(req.route).value, req.authorization, idp).Raise?
    ensures var e := Authorize(Permission(req.route).value, req.authorization, idp).error;
      Serve(db, req, idp) == (db, JsonResponse(e.status, ErrorBody(e.status, e.description)))
  {
  }

  /** A valid token whose payload lacks the route's permission: 403. */
  lemma ForbiddenPayloadGets403(db: Db, route: Route, header: Option<string>, idp: IdentityProvider)
    requires ValidDb(db) && Permission(route).Some?
    requires GetTokenAuthHeaderAsWritten(header).Ok?
    requires VerifyDecodeJwt(GetTokenAuthHeaderAsWritten(header).value, idp).Ok?
    requires CheckPermissions(Permission(route).value,
                              VerifyDecodeJwt(GetTokenAuthHeaderAsWritten(header).value, idp).value) == Raise(Forbidden)
    ensures Serve(db, Request(route, header), idp) == (db, JsonResponse(403, ErrorBody(403, "Request is forbidden.")))
  {
  }

  /** An expired token: 401 "Token has expired.". */
  lemma ExpiredTokenGets401(db: Db, route: Route, header: Option<string>, idp: IdentityProvider)
    requires ValidDb(db) && Permission(route).Some?
    requires GetTokenAuthHeaderAsWritten(header).Ok?
    requires GetRsaKey(GetTokenAuthHeaderAsWritten(header).value, idp).Ok?
    requires var token := GetTokenAuthHeaderAsWritten(header).value;
      idp.decode(token, GetRsaKey(token, idp).value) == ExpiredSignature
    ensures Serve(db, Request(route, header), idp) == (db, JsonResponse(401, ErrorBody(401, "Token has expired.")))
  {
  }

  /** An authorised PATCH /movies/<id> that supplies a new title is answered
      200, yet the stored and the echoed title are the old one. */
  lemma ServedTitlePatchIsLost(db: Db, id: nat, data: Object, header: Option<string>, idp: IdentityProvider)
    requires ValidDb(db) && id in db.movies.rows
    requires Authorize("patch:movie", header, idp).Ok?
    requires Supplies(data, "title") && data["title"] != db.movies.rows[id].title
    requires !PatchFails(data, "release")
    ensures var (db', resp) := Serve(db, Request(UpdateMovieRoute(id, data), header), idp);
      && id in db'.movies.rows
      && db'.movies.rows[id].title == db.movies.rows[id].title != data["title"]
      && resp == JsonResponse(200, SuccessBody("movie", FormatMovie(id, db'.movies.rows[id])))
  {
  }

  /** The two GET routes answer the same whatever the credentials. */
  lemma PublicRoutesIgnoreCredentials(db: Db, route: Route, h1: Option<string>, h2: Option<string>,
                                      idp1: IdentityProvider, idp2: IdentityProvider)
    requires ValidDb(db) && Permission(route).None?
    ensures Serve(db, Request(route, h1), idp1) == Serve(db, Request(route, h2), idp2)
    ensures Serve(db, Request(route, h1), idp1).0 == db
  {
  }

  /** A protected route called without an `Authorization` header, as the
      service's own tests do, is answered 401 and changes nothing. */
  lemma MissingHeaderIsRejected(db: Db, route: Route, idp: IdentityProvider)
    requires ValidDb(db) && Permission(route).Some?
    ensures Serve(db, Request(route, None), idp)
      == (db, JsonResponse(401, ErrorBody(401, "Authorization header not found.")))
  {
  }

  /** A protected route called with the bare header `Bearer` (any case)
      reaches the IndexError in the header parser: the client gets the 500
      page and nothing changes. */
  lemma BareSchemeGetsServerError(db: Db, route: Route, scheme: string, idp: IdentityProvider)
    requires ValidDb(db) && Permission(route).Some? && Lower(scheme) == "bearer"
    ensures Serve(db, Request(route, Some(scheme)), idp) == (db, DefaultPage(500))
  {
    SingleWordHeaderCrashes(scheme);
  }

  /** Every answer is a 200 with `success: true`, a JSON error whose
      `error` field repeats one of the statuses 401, 403, 404 or 422, or the
      500 page of an unhandled exception. */
  lemma ResponsesAreWellFormed(db: Db, req: Request, idp: IdentityProvider)
    requires ValidDb(db)
    ensures var resp := Serve(db, req, idp).1;
      || (resp.JsonResponse? && resp.status == 200 && IsSuccessBody(resp.body))
      || (resp.JsonResponse? && resp.status in {401, 403, 404, 422}
          && resp.body.JObj? && resp.body.fields["success"] == JBool(false)
          && resp.body.fields["error"] == JNum(resp.status))
      || resp == DefaultPage(500)
  {
  }
}

=== FILE: auth.dfy ===
/**
 The authorisation layer of the agency service: reading the bearer token
 from the `Authorization` header, choosing the signing key from the
 identity provider's key set, mapping decode failures to `AuthError`s,
 checking the decoded permissions, and the `requires_auth` chain that runs
 these in order. The key-set download and the JWT library are inputs (an
 IdentityProvider value), not modelled code.
 */
module Auth {
  import opened Outcomes
  import opened JsonValue
  import opened Text

  const HeaderNotFound := AuthError("invalid_header", "Authorization header not found.", 401)
  const InvalidTokenHeader := AuthError("invalid_header", "Invalid token header.", 401)
  const InvalidTokenType := AuthError("invalid_header", "Invalid token type.", 401)
  const EmptyToken := AuthError("invalid_header", "Empty Bearer token value.", 401)
  const InvalidPayload := AuthError("invalid_payload", "Invalid payload.", 422)
  const Forbidden := AuthError("forbidden", "Request is forbidden.", 403)
  const InvalidAuthApi := AuthError("invalid_auth_api", "Invalid authorization API.", 422)
  const MissingKid := AuthError("invalid_header", "Missing \"kid\" header.", 422)
  const NoMatchingKey := AuthError("invalid_key", "Unable to find the appropriate key.", 401)
  const ExpiredToken := AuthError("expired_token", "Token has expired.", 401)
  const InvalidToken := AuthError("invalid_token", "Token is invalid.", 422)
  const InvalidDecode := AuthError("invalid_decode", "Invalid decode configuration.", 422)

  // ---------------------------------------------------------------------
  // get_token_auth_header
  // ---------------------------------------------------------------------

  /** `get_token_auth_header()` as written; `header` is the value of
      `request.headers.get('Authorization', None)`. A header that is a single
      word spelling "bearer" reaches `split_auth_header[1]` and raises an
      IndexError. */
  function GetTokenAuthHeaderAsWritten(header: Option<string>): (r: Outcome<string>)
    ensures r.Ok? || r.Raise? || r.Crash?
    ensures header == None || header == Some("") ==> r == Raise(HeaderNotFound)
    ensures r.Raise? ==> r.error.status == 401 && r.error.code == "invalid_header"
    ensures r.Raise? ==> r.error != InvalidTokenHeader
  {
    if header.None? || header.value == "" then Raise(HeaderNotFound)
    else
      var parts := Split(header.value, ' ');
      if |parts| == 0 then Raise(InvalidTokenHeader)
      else if Lower(parts[0]) != "bearer" then Raise(InvalidTokenType)
      else if |parts| < 2 then Crash
      else if parts[1] == "" then Raise(EmptyToken)
      else Ok(parts[1])
  }

  /** `get_token_auth_header()` with the length guard the code evidently
      meant, placed where the IndexError would occur: a bearer scheme with
      nothing after it is an invalid token header. */
  function GetTokenAuthHeader(header: Option<string>): (r: Outcome<string>)
    ensures r.Ok? || r.Raise?
    ensures header == None || header == Some("") ==> r == Raise(HeaderNotFound)
    ensures r.Raise? ==> r.error.status == 401 && r.error.code == "invalid_header"
  {
    if header.None? || header.value == "" then Raise(HeaderNotFound)
    else
      var parts := Split(header.value, ' ');
      if Lower(parts[0]) != "bearer" then Raise(InvalidTokenType)
      else if |parts| < 2 then Raise(InvalidTokenHeader)
      else if parts[1] == "" then Raise(EmptyToken)
      else Ok(parts[1])
  }

  /** A one-word bearer header: the IndexError of the code as written, and
      the 401 the guard gives it. */
  predicate BareScheme(header: Option<string>) {
    header.Some? && ' ' !in header.value && Lower(header.value) == "bearer"
  }

  /** A header that is one word spelling "bearer" in any case crashes the
      parser as written; with the guard it is a 401 invalid_header. */
  lemma SingleWordHeaderCrashes(scheme: string)
    requires Lower(scheme) == "bearer"
    ensures GetTokenAuthHeaderAsWritten(Some(scheme)) == Crash
    ensures GetTokenAuthHeader(Some(scheme)) == Raise(InvalidTokenHeader)
  {
    BearerHasNoSpace(scheme);
    SplitWithoutSeparator(scheme, ' ');
  }

  /** The guard changes the answer for exactly one kind of header, the bare
      bearer scheme, and that is exactly where the code as written crashes. */
  lemma HeaderFixChangesOnlyTheCrash(header: Option<string>)
    ensures GetTokenAuthHeader(header) != GetTokenAuthHeaderAsWritten(header) <==> BareScheme(header)
    ensures GetTokenAuthHeaderAsWritten(header).Crash? <==> BareScheme(header)
  {
    if header.Some? && header.value != "" {
      var h := header.value;
      var parts := Split(h, ' ');
      if ' ' !in h {
        SplitWithoutSeparator(h, ' ');
      }
    }
  }

  /** The header `<scheme> <token>`, optionally followed by a space and
      anything at all, yields the token whenever the scheme reads "bearer"
      in lower case and the token is a non-empty word. */
  lemma BearerTokenAccepted(scheme: string, token: string, rest: string)
    requires Lower(scheme) == "bearer"
    requires token != "" && ' ' !in token
    ensures GetTokenAuthHeaderAsWritten(Some(scheme + " " + token)) == Ok(token)
    ensures GetTokenAuthHeaderAsWritten(Some(scheme + " " + token + " " + rest)) == Ok(token)
    ensures GetTokenAuthHeader(Some(scheme + " " + token)) == Ok(token)
    ensures GetTokenAuthHeader(Some(scheme + " " + token + " " + rest)) == Ok(token)
  {
    BearerHasNoSpace(scheme);
    SplitWithoutSeparator(scheme, ' ');
    SplitWithoutSeparator(token, ' ');
    SplitAtSeparator(scheme, token, ' ');
    assert scheme + " " + token == scheme + [' '] + token;
    SplitAtSeparator(scheme + " " + token, rest, ' ');
    assert scheme + " " + token + " " + rest == (scheme + " " + token) + [' '] + rest;
  }

  /** Conversely, an accepted token is exactly the second space-separated
      word: the header starts with "bearer" in some case, a space, then the
      token, which ends at the next space or at the end of the header. */
  lemma AcceptedHeaderShape(h: string)
    requires GetTokenAuthHeaderAsWritten(Some(h)).Ok?
    ensures GetTokenAuthHeader(Some(h)) == GetTokenAuthHeaderAsWritten(Some(h))
    ensures var token := GetTokenAuthHeaderAsWritten(Some(h)).value;
      && token != "" && ' ' !in token
      && |h| >= 7 + |token|
      && Lower(h[..6]) == "bearer" && h[6] == ' '
      && h[7..7 + |token|] == token
      && (|h| == 7 + |token| || h[7 + |token|] == ' ')
  {
    HeaderFixChangesOnlyTheCrash(Some(h));
    var parts := Split(h, ' ');
    var token := parts[1];
    BearerHasNoSpace(parts[0]);
    var tail := Join(parts[1..], ' ');
    assert h == parts[0] + [' '] + tail;
    if |parts[1..]| > 1 {
      assert tail == token + [' '] + Join(parts[2..], ' ');
    }
    assert h[..6] == parts[0];
    assert h[7..] == tail;
  }

  /** Any first word other than "bearer" (in any case), alone or followed
      by a space and anything else, is "Invalid token type.". */
  lemma NonBearerSchemeRejected(scheme: string, rest: string)
    requires ' ' !in scheme && Lower(scheme) != "bearer"
    ensures GetTokenAuthHeaderAsWritten(Some(scheme + " " + rest)) == Raise(InvalidTokenType)
    ensures GetTokenAuthHeader(Some(scheme + " " + rest)) == Raise(InvalidTokenType)
    ensures scheme != "" ==> GetTokenAuthHeaderAsWritten(Some(scheme)) == Raise(InvalidTokenType)
    ensures scheme != "" ==> GetTokenAuthHeader(Some(scheme)) == Raise(InvalidTokenType)
  {
    SplitWithoutSeparator(scheme, ' ');
    SplitAtSeparator(scheme, rest, ' ');
    assert scheme + " " + rest == scheme + [' '] + rest;
  }

  /** A bearer scheme followed by a space and nothing, or by two spaces, has
      an empty second piece: "Empty Bearer token value.". */
  lemma EmptyTokenRejected(scheme: string, rest: string)
    requires Lower(scheme) == "bearer"
    ensures GetTokenAuthHeaderAsWritten(Some(scheme + " ")) == Raise(EmptyToken)
    ensures GetTokenAuthHeader(Some(scheme + " ")) == Raise(EmptyToken)
    ensures GetTokenAuthHeaderAsWritten(Some(scheme + "  " + rest)) == Raise(EmptyToken)
    ensures GetTokenAuthHeader(Some(scheme + "  " + rest)) == Raise(EmptyToken)
  {
    BearerHasNoSpace(scheme);
    SplitWithoutSeparator(scheme, ' ');
    SplitWithoutSeparator("", ' ');
    SplitAtSeparator(scheme, "", ' ');
    assert scheme + " " == scheme + [' '] + "";
    SplitAtSeparator("", rest, ' ');
    SplitAtSeparator(scheme, " " + rest, ' ');
    assert " " + rest == "" + [' '] + rest;
    assert scheme + "  " + rest == scheme + [' '] + (" " + rest);
  }

  // ---------------------------------------------------------------------
  // check_permissions
  // ---------------------------------------------------------------------

  /** The payload names the permission: `permission in payload['permissions']`. */
  predicate Granted(payload: Object, permission: string) {
    "permissions" in payload && StrIn(permission, payload["permissions"]) == Ok(true)
  }

  /** `check_permissions(permission, payload)`. */
  function CheckPermissions(permission: string, payload: Object): (r: Outcome<bool>)
    ensures r.Ok? <==> Granted(payload, permission)
    ensures r.Ok? ==> r.value
    ensures r == Raise(InvalidPayload) <==> "permissions" !in payload
    ensures r == Raise(Forbidden) <==> "permissions" in payload && StrIn(permission, payload["permissions"]) == Ok(false)
    ensures r.Ok? || r.Raise? || r.Crash?
  {
    if "permissions" !in payload then Raise(InvalidPayload)
    else match StrIn(permission, payload["permissions"])
      case Ok(true) => Ok(true)
      case Ok(false) => Raise(Forbidden)
      case _ => Crash
  }

  /** For the usual list of permission strings the check is plain membership:
      403 exactly when the permission is missing from the list. */
  lemma PermissionListMembership(permission: string, payload: Object, granted: seq<string>)
    requires "permissions" in payload
    requires payload["permissions"] == JArr(seq(|granted|, i requires 0 <= i < |granted| => JStr(granted[i])))
    ensures CheckPermissions(permission, payload) == Ok(true) <==> permission in granted
    ensures CheckPermissions(permission, payload) == Raise(Forbidden) <==> permission !in granted
  {
    var items := payload["permissions"].items;
    if permission in granted {
      var i :| 0 <= i < |granted| && granted[i] == permission;
      assert items[i] == JStr(permission);
    }
    if JStr(permission) in items {
      var i :| 0 <= i < |items| && items[i] == JStr(permission);
      assert granted[i] == permission;
    }
  }

  // ---------------------------------------------------------------------
  // get_rsa_key
  // ---------------------------------------------------------------------

  /** The key handed to the JWT library: the five members copied from the
      chosen entry of the key set. */
  datatype RsaKey = RsaKey(kty: Json, kid: Json, use: Json, n: Json, e: Json)

  /** What `jwt.decode` does with a token and a key: the claims, or one of
      the exceptions the handler distinguishes. */
  datatype Decoded =
    | Claims(payload: Object)
    | ExpiredSignature   // jwt.ExpiredSignatureError
    | ClaimsRejected     // jwt.JWTClaimsError: wrong audience or issuer
    | Rejected           // any other exception: bad signature, malformed token

  /** The outside world the auth layer consults: the key-set document fetched
      from the identity provider (`False` when the fetch did not return 200),
      the unverified header of a token (None when the library cannot read it),
      and signature and claims verification. */
  datatype IdentityProvider = IdentityProvider(
    jwks: Json,
    unverifiedHeader: string -> Option<Object>,
    decode: (string, RsaKey) -> Decoded)

  predicate HasKid(key: Json) {
    key.JObj? && "kid" in key.fields
  }

  predicate Matches(key: Json, kid: Json) {
    HasKid(key) && key.fields["kid"] == kid
  }

  predicate HasRsaFields(key: Json) {
    key.JObj? && "kty" in key.fields && "kid" in key.fields && "use" in key.fields
    && "n" in key.fields && "e" in key.fields
  }

  /** A key-set entry the loop cannot get past: `key['kid']` fails, or the
      entry matches and one of the copied members is missing. */
  predicate Breaks(key: Json, kid: Json) {
    !HasKid(key) || (Matches(key, kid) && !HasRsaFields(key))
  }

  function RsaKeyOf(key: Json): RsaKey
    requires HasRsaFields(key)
  {
    var f := key.fields;
    RsaKey(f["kty"], f["kid"], f["use"], f["n"], f["e"])
  }

  /** The `for key in jwks_data['keys']` loop, with `found` the current
      value of `rsa_key`. It does not break on a match. */
  function ScanKeys(keys: seq<Json>, kid: Json, found: Option<RsaKey>): (r: Outcome<Option<RsaKey>>)
    ensures r.Ok? || r.Crash?
    ensures r.Ok? && found.Some? ==> r.value.Some?
    decreases |keys|
  {
    if keys == [] then Ok(found)
    else if !HasKid(keys[0]) then Crash
    else if keys[0].fields["kid"] != kid then ScanKeys(keys[1..], kid, found)
    else if !HasRsaFields(keys[0]) then Crash
    else ScanKeys(keys[1..], kid, Some(RsaKeyOf(keys[0])))
  }

  /** The loop fails exactly when some entry breaks it; otherwise it keeps
      the key built from the LAST matching entry, or its starting value when
      nothing matches. */
  lemma {:induction false} ScanKeysPicksLastMatch(keys: seq<Json>, kid: Json, found: Option<RsaKey>)
    ensures ScanKeys(keys, kid, found).Ok? || ScanKeys(keys, kid, found).Crash?
    ensures ScanKeys(keys, kid, found).Crash? <==> exists j :: 0 <= j < |keys| && Breaks(keys[j], kid)
    ensures ScanKeys(keys, kid, found).Ok? && (forall j :: 0 <= j < |keys| ==> !Matches(keys[j], kid))
      ==> ScanKeys(keys, kid, found) == Ok(found)
    ensures ScanKeys(keys, kid, found).Ok? && (found.Some? || exists j :: 0 <= j < |keys| && Matches(keys[j], kid))
      ==> ScanKeys(keys, kid, found).value.Some?
    ensures forall j :: (0 <= j < |keys| && Matches(keys[j], kid) && HasRsaFields(keys[j])
                         && ScanKeys(keys, kid, found).Ok? && (forall k :: j < k < |keys| ==> !Matches(keys[k], kid)))
                        ==> ScanKeys(keys, kid, found) == Ok(Some(RsaKeyOf(keys[j])))
    decreases |keys|
  {
    if keys != [] {
      var tail := keys[1..];
      assert forall j :: 0 < j < |keys| ==> keys[j] == tail[j - 1];
      if HasKid(keys[0]) && keys[0].fields["kid"] != kid {
        ScanKeysPicksLastMatch(tail, kid, found);
      } else if Matches(keys[0], kid) && HasRsaFields(keys[0]) {
        ScanKeysPicksLastMatch(tail, kid, Some(RsaKeyOf(keys[0])));
      }
    }
  }

  /** `jwks_data['keys']` followed by iteration: a list is iterated; an empty
      dict or string gives no entries; anything else raises. */
  function KeyList(doc: Json): (r: Option<seq<Json>>)
    ensures r.Some? ==> doc.JObj? && "keys" in doc.fields
    ensures doc.JObj? && "keys" in doc.fields && doc.fields["keys"].JArr? ==> r == Some(doc.fields["keys"].items)
    ensures r.Some? && !doc.fields["keys"].JArr? ==> r == Some([]) && !Truthy(doc.fields["keys"])
    ensures (doc.JObj? && "keys" in doc.fields && !Truthy(doc.fields["keys"])
             && (doc.fields["keys"].JObj? || doc.fields["keys"].JStr?)) ==> r == Some([])
    ensures (doc.JObj? && "keys" in doc.fields
             && (doc.fields["keys"].JNull? || doc.fields["keys"].JBool? || doc.fields["keys"].JNum?)) ==> r.None?
  {
    if doc.JObj? && "keys" in doc.fields then
      match doc.fields["keys"]
      case JArr(xs) => Some(xs)
      case JObj(m) => if m == map[] then Some([]) else None
      case JStr(s) => if s == "" then Some([]) else None
      case _ => None
    else None
  }

  /** `get_rsa_key(token)`. */
  function GetRsaKey(token: string, idp: IdentityProvider): (r: Outcome<RsaKey>)
    ensures !Truthy(idp.jwks) ==> r == Raise(InvalidAuthApi)
    ensures Truthy(idp.jwks) && idp.unverifiedHeader(token).None? ==> r == Crash
    ensures (Truthy(idp.jwks) && idp.unverifiedHeader(token).Some? && "kid" !in idp.unverifiedHeader(token).value)
      ==> r == Raise(MissingKid)
    ensures r.Raise? ==> r.error == InvalidAuthApi || r.error == MissingKid || r.error == NoMatchingKey
    ensures r.Ok? || r.Raise? || r.Crash?
  {
    if !Truthy(idp.jwks) then Raise(InvalidAuthApi)
    else match idp.unverifiedHeader(token)
      case None => Crash
      case Some(header) =>
        if "kid" !in header then Raise(MissingKid)
        else match KeyList(idp.jwks)
          case None => Crash
          case Some(keys) =>
            match ScanKeys(keys, header["kid"], None)
            case Ok(Some(key)) => Ok(key)
            case Ok(None) => Raise(NoMatchingKey)
            case _ => Crash
  }

  /** With a readable key set and a token naming a `kid`: the lookup raises
      an unhandled error exactly when some entry breaks the loop; the 401 for
      "no key" comes exactly when no entry matches; and otherwise the key is
      built from the last matching entry. */
  lemma GetRsaKeyUsesLastMatch(token: string, idp: IdentityProvider)
    requires Truthy(idp.jwks) && idp.unverifiedHeader(token).Some?
    requires "kid" in idp.unverifiedHeader(token).value
    requires KeyList(idp.jwks).Some?
    ensures var kid := idp.unverifiedHeader(token).value["kid"];
      var keys := KeyList(idp.jwks).value;
      && (GetRsaKey(token, idp).Crash? <==> exists k :: 0 <= k < |keys| && Breaks(keys[k], kid))
      && (GetRsaKey(token, idp) == Raise(NoMatchingKey) <==>
            (forall j :: 0 <= j < |keys| ==> !Breaks(keys[j], kid) && !Matches(keys[j], kid)))
      && (forall j :: 0 <= j < |keys| && Matches(keys[j], kid)
            && (forall k :: j < k < |keys| ==> !Matches(keys[k], kid))
            && (forall k :: 0 <= k < |keys| ==> !Breaks(keys[k], kid))
            ==> HasRsaFields(keys[j]) && GetRsaKey(token, idp) == Ok(RsaKeyOf(keys[j])))
  {
    var kid := idp.unverifiedHeader(token).value["kid"];
    var keys := KeyList(idp.jwks).value;
    ScanKeysPicksLastMatch(keys, kid, None);
    forall j | 0 <= j < |keys| && Matches(keys[j], kid)
        && (forall k :: j < k < |keys| ==> !Matches(keys[k], kid))
        && (forall k :: 0 <= k < |keys| ==> !Breaks(keys[k], kid))
      ensures HasRsaFields(keys[j]) && GetRsaKey(token, idp) == Ok(RsaKeyOf(keys[j]))
    {
      assert !Breaks(keys[j], kid);
    }
  }

  // ---------------------------------------------------------------------
  // verify_decode_jwt
  // ---------------------------------------------------------------------

  /** The `except` chain of `verify_decode_jwt` as written: `except Exception`
      comes before `except jwt.JWTClaimsError`, so a claims error is reported
      as an invalid token. */
  function DecodeFailureAsWritten(d: Decoded): (e: AuthError)
    requires !d.Claims?
    ensures e.status == (if d.ExpiredSignature? then 401 else 422)
    ensures e != InvalidDecode
  {
    if d.ExpiredSignature? then ExpiredToken else InvalidToken
  }

  /** The `except` chain with the claims handler reachable. */
  function DecodeFailure(d: Decoded): (e: AuthError)
    requires !d.Claims?
    ensures e.status == (if d.ExpiredSignature? then 401 else 422)
  {
    match d
    case ExpiredSignature => ExpiredToken
    case ClaimsRejected => InvalidDecode
    case Rejected => InvalidToken
  }

  /** As written, a rejected audience or issuer is indistinguishable from a
      bad signature; with the handler reachable every failure kind gets its
      own error. */
  lemma ClaimsHandlerUnreachable(d1: Decoded, d2: Decoded)
    requires !d1.Claims? && !d2.Claims?
    ensures DecodeFailureAsWritten(ClaimsRejected) == DecodeFailureAsWritten(Rejected) == InvalidToken
    ensures d1 != d2 ==> DecodeFailure(d1) != DecodeFailure(d2)
  {
  }

  /** `verify_decode_jwt(token)`: the key lookup, then the library decode. */
  function VerifyDecodeJwt(token: string, idp: IdentityProvider): (r: Outcome<Object>)
    ensures r.Ok? <==> GetRsaKey(token, idp).Ok? && idp.decode(token, GetRsaKey(token, idp).value).Claims?
    ensures r.Ok? ==> r.value == idp.decode(token, GetRsaKey(token, idp).value).payload
    ensures !GetRsaKey(token, idp).Ok? ==> r == GetRsaKey(token, idp).PropagateFailure()
    ensures r.Raise? ==> r.error.status == 401 || r.error.status == 422
    ensures r.Raise? ==> r.error != InvalidDecode
    ensures GetRsaKey(token, idp).Ok? && !idp.decode(token, GetRsaKey(token, idp).value).Claims?
      ==> r == Raise(DecodeFailureAsWritten(idp.decode(token, GetRsaKey(token, idp).value)))
  {
    var key :- GetRsaKey(token, idp);
    match idp.decode(token, key)
    case Claims(payload) => Ok(payload)
    case other => Raise(DecodeFailureAsWritten(other))
  }

  // ---------------------------------------------------------------------
  // requires_auth
  // ---------------------------------------------------------------------

  /** The checks the `requires_auth(permission)` wrapper makes before calling
      the route handler, in order; the decoded payload on success. */
  function Authorize(permission: string, header: Option<string>, idp: IdentityProvider): (r: Outcome<Object>)
    ensures r.Ok? <==>
      && GetTokenAuthHeaderAsWritten(header).Ok?
      && VerifyDecodeJwt(GetTokenAuthHeaderAsWritten(header).value, idp).Ok?
      && Granted(VerifyDecodeJwt(GetTokenAuthHeaderAsWritten(header).value, idp).value, permission)
    ensures r.Ok? ==> r.value == VerifyDecodeJwt(GetTokenAuthHeaderAsWritten(header).value, idp).value
    ensures r.Ok? || r.Raise? || r.Crash?
    ensures r.Raise? ==> r.error.status in {401, 403, 422}
    ensures header.None? ==> r == Raise(HeaderNotFound)
    ensures !GetTokenAuthHeaderAsWritten(header).Ok? ==> r == GetTokenAuthHeaderAsWritten(header).PropagateFailure()
    ensures GetTokenAuthHeaderAsWritten(header).Ok? ==>
      var token := GetTokenAuthHeaderAsWritten(header).value;
      && (!VerifyDecodeJwt(token, idp).Ok? ==> r == VerifyDecodeJwt(token, idp).PropagateFailure())
      && (VerifyDecodeJwt(token, idp).Ok? && !CheckPermissions(permission, VerifyDecodeJwt(token, idp).value).Ok?
          ==> r == CheckPermissions(permission, VerifyDecodeJwt(token, idp).value).PropagateFailure())
  {
    var token :- GetTokenAuthHeaderAsWritten(header);
    var payload :- VerifyDecodeJwt(token, idp);
    var granted :- CheckPermissions(permission, payload);
    Ok(payload)
  }
}

=== FILE: json_value.dfy ===
/**
 JSON values as the service sees them after `request.get_json()` or a token
 decode, with the two Python behaviours the handlers rely on: truthiness
 (`if data['name']:`) and the `in` operator on a value of unknown shape.
 */
module JsonValue {
  import opened Outcomes

  datatype Json =
    | JNull
    | JBool(b: bool)
    | JNum(n: int)
    | JStr(s: string)
    | JArr(items: seq<Json>)
    | JObj(fields: map<string, Json>)

  /** A JSON object, as a Python dict with string keys. */
  type Object = map<string, Json>

  /** Python truthiness: None, False, 0, "", [] and {} are false. */
  predicate Truthy(v: Json) {
    match v
    case JNull => false
    case JBool(b) => b
    case JNum(n) => n != 0
    case JStr(s) => s != ""
    case JArr(xs) => xs != []
    case JObj(m) => m != map[]
  }

  predicate OccursAt(needle: string, hay: string, i: nat) {
    i + |needle| <= |hay| && hay[i..i + |needle|] == needle
  }

  predicate IsSubstring(needle: string, hay: string) {
    exists i: nat | i <= |hay| :: OccursAt(needle, hay, i)
  }

  /** Python `text in v` for a str `text`: list membership, dict key
      membership, substring on a str, and a TypeError (Crash) on None,
      booleans and numbers. */
  function StrIn(text: string, v: Json): (r: Outcome<bool>)
    ensures r.Ok? || r.Crash?
    ensures r.Crash? <==> (v.JNull? || v.JBool? || v.JNum?)
  {
    match v
    case JArr(xs) => Ok(JStr(text) in xs)
    case JObj(m) => Ok(text in m)
    case JStr(s) => Ok(IsSubstring(text, s))
    case _ => Crash
  }
}

=== FILE: models.dfy ===
/**
 The `actors` and `movies` tables of the agency service, with the ORM
 effects the route handlers use: `insert` (add and commit under the next
 value of the primary-key sequence), `update` (commit the changed row under
 the same id), `delete`, `query.get`, `query.all`, and the `format`
 serialisers. A table is a map from primary key to an immutable row plus
 the next value its id sequence will hand out.
 */
module Models {
  import opened Outcomes
  import opened JsonValue

  /** The columns of `Actor` other than its id. The constructor stores the
      three values as given; `age` is a string column, but nothing checks the
      content of any field. */
  datatype ActorData = ActorData(name: Json, age: Json, gender: Json)

  /** The columns of `Movie` other than its id. */
  datatype MovieData = MovieData(title: Json, release: Json)

  datatype Table<R> = Table(rows: map<nat, R>, nextId: nat)

  /** A value the database driver can bind to a String column. The driver has
      no adapter for a dict and refuses a string holding a NUL character, so
      committing a row with such a field raises and nothing is stored. */
  predicate Storable(v: Json) {
    !v.JObj? && !(v.JStr? && '\0' in v.s)
  }

  /** The largest value of the 32-bit `db.Integer` primary-key sequence. */
  const MaxSerial: nat := 0x7FFF_FFFF

  /** The id sequence has handed out its last value: the next `insert()`
      raises and nothing is stored. */
  predicate Exhausted<R>(t: Table<R>) {
    t.nextId > MaxSerial
  }

  predicate ActorStorable(a: ActorData) {
    Storable(a.name) && Storable(a.age) && Storable(a.gender)
  }

  predicate MovieStorable(m: MovieData) {
    Storable(m.title) && Storable(m.release)
  }

  /** The primary-key sequence starts at 1 and has handed out every stored id. */
  predicate Valid<R>(t: Table<R>) {
    t.nextId >= 1 && forall id :: id in t.rows ==> 1 <= id < t.nextId
  }

  function EmptyTable<R>(): (t: Table<R>)
    ensures Valid(t) && |t.rows| == 0
  {
    Table(map[], 1)
  }

  /** `Model.query.get(id)`: the row, or None. */
  function Get<R>(t: Table<R>, id: nat): (r: Option<R>)
    ensures r.Some? <==> id in t.rows
    ensures r.Some? ==> r.value == t.rows[id]
  {
    if id in t.rows then Some(t.rows[id]) else None
  }

  /** `insert()`: the row is stored under the sequence's next value, which is
      returned, and the sequence advances past it. */
  function Insert<R>(t: Table<R>, r: R): (res: (Table<R>, nat))
    requires Valid(t)
    ensures Valid(res.0)
    ensures res.1 == t.nextId && res.0.nextId == t.nextId + 1
    ensures res.1 >= 1 && res.1 !in t.rows
    ensures res.0.rows.Keys == t.rows.Keys + {res.1}
    ensures Get(res.0, res.1) == Some(r)
    ensures forall id :: id != res.1 ==> Get(res.0, id) == Get(t, id)
  {
    (Table(t.rows[t.nextId := r], t.nextId + 1), t.nextId)
  }

  /** `update()`: the changed row is committed under the same id. */
  function Update<R>(t: Table<R>, id: nat, r: R): (res: Table<R>)
    requires Valid(t) && id in t.rows
    ensures Valid(res) && res.nextId == t.nextId
    ensures res.rows.Keys == t.rows.Keys
    ensures Get(res, id) == Some(r)
    ensures forall other :: other != id ==> Get(res, other) == Get(t, other)
  {
    Table(t.rows[id := r], t.nextId)
  }

  /** `delete()`: only the given row disappears. */
  function Delete<R>(t: Table<R>, id: nat): (res: Table<R>)
    requires Valid(t) && id in t.rows
    ensures Valid(res) && res.nextId == t.nextId
    ensures res.rows.Keys == t.rows.Keys - {id}
    ensures Get(res, id) == None
    ensures forall other :: other != id ==> Get(res, other) == Get(t, other)
  {
    Table(t.rows - {id}, t.nextId)
  }

  /** Deleting the row an insert just created gives back the original rows;
      the id sequence does not rewind. */
  lemma DeleteUndoesInsert<R>(t: Table<R>, r: R)
    requires Valid(t)
    ensures var (t', id) := Insert(t, r);
      Delete(t', id).rows == t.rows && Delete(t', id).nextId == t.nextId + 1
  {
    var (t', id) := Insert(t, r);
    assert Delete(t', id).rows.Keys == t.rows.Keys;
  }

  /** A deleted id is never handed out again: the next insert, and every
      insert after it, uses an id above it. */
  lemma DeletedIdNotReused<R>(t: Table<R>, id: nat, r: R)
    requires Valid(t) && id in t.rows
    ensures Insert(Delete(t, id), r).1 != id
    ensures Insert(Delete(t, id), r).1 > id && Insert(Delete(t, id), r).0.nextId > id
  {
  }

  /** The id 0 is never handed out, so `query.get(0)` finds nothing. */
  lemma NoRowHasIdZero<R>(t: Table<R>)
    requires Valid(t)
    ensures Get(t, 0) == None
  {
  }

  // ---------------------------------------------------------------------
  // Serialisation
  // ---------------------------------------------------------------------

  /** `Actor.format()`. */
  function FormatActor(id: nat, a: ActorData): (j: Json)
    ensures j.JObj? && j.fields.Keys == {"id", "name", "age", "gender"}
    ensures j.fields["id"] == JNum(id)
    ensures j.fields["name"] == a.name && j.fields["age"] == a.age && j.fields["gender"] == a.gender
  {
    JObj(map["id" := JNum(id), "name" := a.name, "age" := a.age, "gender" := a.gender])
  }

  /** `Movie.format()`. */
  function FormatMovie(id: nat, m: MovieData): (j: Json)
    ensures j.JObj? && j.fields.Keys == {"id", "title", "release"}
    ensures j.fields["id"] == JNum(id)
    ensures j.fields["title"] == m.title && j.fields["release"] == m.release
  {
    JObj(map["id" := JNum(id), "title" := m.title, "release" := m.release])
  }

  /** Reads an actor back from its serialised form; None for anything that
      is not exactly what FormatActor produces. */
  function ParseActor(j: Json): Option<(nat, ActorData)> {
    if j.JObj? && j.fields.Keys == {"id", "name", "age", "gender"}
       && j.fields["id"].JNum? && j.fields["id"].n >= 0
    then Some((j.fields["id"].n, ActorData(j.fields["name"], j.fields["age"], j.fields["gender"])))
    else None
  }

  function ParseMovie(j: Json): Option<(nat, MovieData)> {
    if j.JObj? && j.fields.Keys == {"id", "title", "release"}
       && j.fields["id"].JNum? && j.fields["id"].n >= 0
    then Some((j.fields["id"].n, MovieData(j.fields["title"], j.fields["release"])))
    else None
  }

  /** The serialised actor loses nothing, and a serialised actor is the only
      thing ParseActor accepts. */
  lemma ActorFormatRoundTrip(id: nat, a: ActorData, j: Json)
    ensures ParseActor(FormatActor(id, a)) == Some((id, a))
    ensures ParseActor(j) == Some((id, a)) ==> j == FormatActor(id, a)
  {
    if ParseActor(j) == Some((id, a)) {
      assert j.fields == FormatActor(id, a).fields;
    }
  }

  lemma MovieFormatRoundTrip(id: nat, m: MovieData, j: Json)
    ensures ParseMovie(FormatMovie(id, m)) == Some((id, m))
    ensures ParseMovie(j) == Some((id, m)) ==> j == FormatMovie(id, m)
  {
    if ParseMovie(j) == Some((id, m)) {
      assert j.fields == FormatMovie(id, m).fields;
    }
  }

  // ---------------------------------------------------------------------
  // query.all()
  // ---------------------------------------------------------------------

  /** The rows with ids in [lo, hi), in ascending id order. */
  function RowsFrom<R>(rows: map<nat, R>, lo: nat, hi: nat): (r: seq<(nat, R)>)
    ensures forall j :: 0 <= j < |r| ==> lo <= r[j].0 < hi && r[j].0 in rows && rows[r[j].0] == r[j].1
    ensures Ascending(r)
    decreases hi - lo
  {
    if lo >= hi then []
    else if lo in rows then [(lo, rows[lo])] + RowsFrom(rows, lo + 1, hi)
    else RowsFrom(rows, lo + 1, hi)
  }

  predicate Ascending<R>(r: seq<(nat, R)>) {
    forall i, j :: 0 <= i < j < |r| ==> r[i].0 < r[j].0
  }

  /** Every row with an id in [lo, hi) is listed. */
  lemma {:induction false} RowsFromComplete<R>(rows: map<nat, R>, lo: nat, hi: nat, k: nat)
    requires lo <= k < hi && k in rows
    ensures exists j :: 0 <= j < |RowsFrom(rows, lo, hi)| && RowsFrom(rows, lo, hi)[j].0 == k
    decreases hi - lo
  {
    var r := RowsFrom(rows, lo, hi);
    if k == lo {
      assert r[0].0 == k;
    } else {
      RowsFromComplete(rows, lo + 1, hi, k);
      var rest := RowsFrom(rows, lo + 1, hi);
      var j :| 0 <= j < |rest| && rest[j].0 == k;
      if lo in rows {
        assert r[j + 1] == rest[j];
      } else {
        assert r[j] == rest[j];
      }
    }
  }

  function KeysIn<R>(rows: map<nat, R>, lo: nat, hi: nat): set<nat> {
    set k | k in rows && lo <= k < hi
  }

  lemma {:induction false} RowsFromCount<R>(rows: map<nat, R>, lo: nat, hi: nat)
    ensures |RowsFrom(rows, lo, hi)| == |KeysIn(rows, lo, hi)|
    decreases hi - lo
  {
    var here := KeysIn(rows, lo, hi);
    if lo >= hi {
      assert here == {};
    } else {
      var later := KeysIn(rows, lo + 1, hi);
      RowsFromCount(rows, lo + 1, hi);
      if lo in rows {
        assert |RowsFrom(rows, lo, hi)| == 1 + |RowsFrom(rows, lo + 1, hi)|;
        assert lo !in later;
        assert here == later + {lo};
      } else {
        assert RowsFrom(rows, lo, hi) == RowsFrom(rows, lo + 1, hi);
        assert here == later;
      }
    }
  }

  /** `query.all()`. The query has no ORDER BY; this model returns the rows
      in ascending id order. */
  function AllRows<R>(t: Table<R>): (r: seq<(nat, R)>)
    ensures Ascending(r)
    ensures forall j :: 0 <= j < |r| ==> r[j].0 in t.rows && t.rows[r[j].0] == r[j].1
  {
    RowsFrom(t.rows, 0, t.nextId)
  }

  /** `query.all()` returns every stored row exactly once. */
  lemma AllRowsListsEveryRow<R>(t: Table<R>)
    requires Valid(t)
    ensures |AllRows(t)| == |t.rows|
    ensures forall j :: 0 <= j < |AllRows(t)| ==> AllRows(t)[j].0 in t.rows && t.rows[AllRows(t)[j].0] == AllRows(t)[j].1
    ensures forall id :: id in t.rows ==> exists j :: 0 <= j < |AllRows(t)| && AllRows(t)[j].0 == id
    ensures forall i, j :: 0 <= i < j < |AllRows(t)| ==> AllRows(t)[i].0 != AllRows(t)[j].0
  {
    RowsFromCount(t.rows, 0, t.nextId);
    forall id | id in t.rows
      ensures exists j :: 0 <= j < |AllRows(t)| && AllRows(t)[j].0 == id
    {
      RowsFromComplete(t.rows, 0, t.nextId, id);
      assert AllRows(t) == RowsFrom(t.rows, 0, t.nextId);
    }
    assert KeysIn(t.rows, 0, t.nextId) == t.rows.Keys;
  }
}

=== FILE: outcomes.dfy ===
/**
 How a step of request handling ends in the agency service: with a value,
 with a Flask `abort(status)`, with a raised `AuthError`, or with an
 exception nobody handles (an IndexError, KeyError, TypeError or a JWT
 library error), which Flask turns into its default 500 page.
 */
module Outcomes {

  datatype Option<+T> = None | Some(value: T)

  /** `AuthError(error, status_code)`: the error dictionary's `code` and
      `description`, and the HTTP status that reaches the client. */
  datatype AuthError = AuthError(code: string, description: string, status: nat)

  datatype Outcome<+T> =
    | Ok(value: T)
    | Abort(status: nat)
    | Raise(error: AuthError)
    | Crash
  {
    predicate IsFailure() {
      !Ok?
    }

    function PropagateFailure<U>(): Outcome<U>
      requires !Ok?
    {
      if Abort? then Abort(status)
      else if Raise? then Raise(error)
      else Crash
    }

    function Extract(): T
      requires Ok?
    {
      value
    }
  }

  /** The HTTP status a client sees for an outcome once Flask and the
      registered error handlers are done with it. */
  function StatusOf<T>(o: Outcome<T>): nat {
    match o
    case Ok(_) => 200
    case Abort(s) => s
    case Raise(e) => e.status
    case Crash => 500
  }
}

=== FILE: text.dfy ===
/**
 The two string operations the bearer-header parser uses: Python's
 `str.split(' ')` with an explicit separator (every occurrence splits and
 empty pieces are kept, so `"a  b"` gives `["a", "", "b"]`) and `str.lower()`.
 */
module Text {

  /** Joins pieces with the separator between them; the inverse of Split. */
  function Join(parts: seq<string>, sep: char): string
    requires |parts| >= 1
    decreases |parts|
  {
    if |parts| == 1 then parts[0] else parts[0] + [sep] + Join(parts[1..], sep)
  }

  /** `s.split(sep)` for a one-character separator. */
  function Split(s: string, sep: char): (parts: seq<string>)
    ensures |parts| >= 1
    ensures forall i :: 0 <= i < |parts| ==> sep !in parts[i]
    ensures Join(parts, sep) == s
    decreases |s|
  {
    if s == [] then [""]
    else
      var rest := Split(s[1..], sep);
      if s[0] == sep then
        var parts := [""] + rest;
        assert parts[1..] == rest;
        parts
      else
        var parts := [[s[0]] + rest[0]] + rest[1..];
        assert |rest| > 1 ==> parts[1..] == rest[1..] && Join(rest, sep) == rest[0] + [sep] + Join(rest[1..], sep);
        assert s == [s[0]] + s[1..];
        parts
  }

  lemma {:induction false} SplitWithoutSeparator(s: string, sep: char)
    requires sep !in s
    ensures Split(s, sep) == [s]
    decreases |s|
  {
    if s != [] {
      SplitWithoutSeparator(s[1..], sep);
      assert [s[0]] + s[1..] == s;
    }
  }

  /** Splitting at one separator splits the text on each side independently. */
  lemma {:induction false} SplitAtSeparator(a: string, b: string, sep: char)
    ensures Split(a + [sep] + b, sep) == Split(a, sep) + Split(b, sep)
    decreases |a|
  {
    var s := a + [sep] + b;
    if a == [] {
      assert s[1..] == b;
    } else {
      assert s[0] == a[0];
      assert s[1..] == a[1..] + [sep] + b;
      SplitAtSeparator(a[1..], b, sep);
      var ra := Split(a[1..], sep);
      var rb := Split(b, sep);
      var rest := Split(s[1..], sep);
      assert rest == ra + rb;
      if a[0] == sep {
        calc {
          Split(s, sep);
          [""] + rest;
          ([""] + ra) + rb;
          Split(a, sep) + rb;
        }
      } else {
        assert rest[0] == ra[0];
        assert rest[1..] == ra[1..] + rb;
        calc {
          Split(s, sep);
          [[a[0]] + rest[0]] + rest[1..];
          ([[a[0]] + ra[0]] + ra[1..]) + rb;
          Split(a, sep) + rb;
        }
      }
    }
  }

  /** Split undoes Join whenever no piece contains the separator. */
  lemma {:induction false} SplitJoin(parts: seq<string>, sep: char)
    requires |parts| >= 1
    requires forall i :: 0 <= i < |parts| ==> sep !in parts[i]
    ensures Split(Join(parts, sep), sep) == parts
    decreases |parts|
  {
    SplitWithoutSeparator(parts[0], sep);
    if |parts| > 1 {
      SplitJoin(parts[1..], sep);
      SplitAtSeparator(parts[0], Join(parts[1..], sep), sep);
      assert [parts[0]] + parts[1..] == parts;
    }
  }

  /** `c.lower()` for one character; only ASCII letters change. */
  function LowerChar(c: char): char {
    if 'A' <= c <= 'Z' then (c as int - 'A' as int + 'a' as int) as char else c
  }

  /** `s.lower()`, character by character. */
  function Lower(s: string): string {
    seq(|s|, i requires 0 <= i < |s| => LowerChar(s[i]))
  }

  /** Comparing `s.lower()` with "bearer" accepts exactly the six-letter
      spellings of the word in any mix of cases. */
  lemma BearerInAnyCase(s: string)
    ensures Lower(s) == "bearer" <==>
      |s| == 6 && forall i :: 0 <= i < 6 ==> s[i] == "bearer"[i] || s[i] == "BEARER"[i]
  {
    if Lower(s) == "bearer" {
      forall i | 0 <= i < 6
        ensures s[i] == "bearer"[i] || s[i] == "BEARER"[i]
      {
        assert LowerChar(s[i]) == "bearer"[i];
      }
    }
    if |s| == 6 && forall i :: 0 <= i < 6 ==> s[i] == "bearer"[i] || s[i] == "BEARER"[i] {
      forall i | 0 <= i < 6
        ensures Lower(s)[i] == "bearer"[i]
      {
      }
    }
  }

  /** A scheme whose lower-case form is "bearer" holds no space, so it is
      always a whole piece of the split header. */
  lemma BearerHasNoSpace(s: string)
    requires Lower(s) == "bearer"
    ensures ' ' !in s && |s| == 6
  {
    forall i | 0 <= i < |s|
      ensures s[i] != ' '
    {
      assert Lower(s)[i] == "bearer"[i];
    }
  }
}
